=== FILE: README.md ===
# Instanced sprite renderer — verified model

A Dafny model of the sequential logic inside a Vulkan renderer that draws a
population of 1000 moving 2D sprites with one instanced draw call:

- the seeded xorshift32 generator and `randomNumber` (`Random`, random.dfy);
- the `Sprite` entity with its `Transform2dComponent` defaults and the
  Euler motion step (`Sprites`, sprite.dfy);
- the per-instance `SpriteData` record, its byte layout and size, and the
  serialisation of a sprite into it (`InstanceData`, sprite_data.dfy);
- the pipeline object's descriptor layout, push-constant range and
  descriptor-pool capacity, the shared quad mesh, and `loadSprites`
  (`Pipeline`, pipeline.dfy);
- the render orchestrator with its state slots (at most one instance buffer
  and one instance descriptor set) and its three public operations
  `initialize`, `updateSprites` and `renderSprites` (`Render`,
  render_system.dfy).

Floats are modelled as reals. The generator state is a `bv32`, threaded
through pure functions instead of living in a global. The process-wide
sprite list is passed to and returned from the orchestrator's operations.
Vulkan calls appear only as their effect: a buffer holding the records last
copied into it, a descriptor set recording what its two bindings point at,
the number of sets and descriptors taken from the pool, and the list of
commands `renderSprites` records.

Policies the model fixes:

- `initialize` called again re-initialises. It builds a new buffer sized to
  the current population and allocates a new descriptor set. Both replace
  the old ones, and the pool keeps the old set allocated because sets are
  never freed.
- `initialize` on an empty population does not fail with "spriteDataBuffer
  is not initialized!" when an earlier call left a buffer. It then either
  fails to allocate a descriptor set, when the pool is full, or reads
  `sprites[0]` from an empty list. The model rejects every empty
  population: with `BufferNotInitialized` when no buffer exists, with
  `DescriptorSetAllocationFailed` when the pool is full, and with
  `EmptyPopulationIndexed` in place of the out-of-range read.
- `updateSprites` overwrites only the first n records, so after the
  population shrinks the buffer keeps more records than there are sprites.
- `sizeof(SpriteData)` is 52 bytes. The six members are packed arrays of
  4-byte scalars (glm without forced alignment), so C inserts no padding.
- `static_cast<float>(UINT32_MAX)` is 2^32 as a float, so the exact
  quotient of an output by it lies in [0, 1); float rounding of the
  output can make it 1, which the range lemma still admits.

## Model

| member | source | states |
|---|---|---|
| `Random.ShiftStepsKeepNonzero` | main.cpp:16-18 | each of the three xor-shift steps (left 13, right 17, left 5) maps a nonzero word to a nonzero word |
| `Random.ZeroIsIsolated` | main.cpp:15-20 | one generator step yields 0 exactly when the state was 0 |
| `Random.Next` | main.cpp:15-20 | `xorshift32()` returns exactly the state it stores, and the stored state is nonzero iff the previous one was |
| `Random.AdvanceAdditive` | main.cpp:15-20 | a calls then b calls leave the state where a + b calls do |
| `Random.AdvanceNonzero` | main.cpp:12-20 | from a nonzero seed the state never reaches 0, however many calls are made |
| `Random.FirstOutputsFromSeed` | main.cpp:12-20 | from seed 123456789 the first four outputs are 0xA1D31F49, 0x857194D4, 0x4A82AB01, 0xE3B21AF0 |
| `Random.Normalized` | main.cpp:23 | the generator output divided by the float value of `UINT32_MAX` lies in [0, 1) |
| `Random.InterpolateInRange` | main.cpp:24 | `min + (max - min) * normalized` lies in [min, max] when min <= max and normalized is in [0, 1], which includes the float quotient rounded up to 1 |
| `Random.RandomNumber` | main.cpp:22-25 | `randomNumber` advances the generator exactly once, and its value is the interpolation of the new state and lies in [min, max] when min <= max |
| `Sprites.Integrate` | renderSystem.cpp:191 | a motion step moves the translation by speed * dt and changes nothing else about the sprite |
| `Sprites.IntegrateZero` | renderSystem.cpp:191 | a step of length 0 is the identity |
| `Sprites.IntegrateAdditive` | renderSystem.cpp:191 | steps of dt1 then dt2 equal one step of dt1 + dt2 |
| `Sprites.DefaultTransformAtRest` | sprite.hpp:12-17 | a default-constructed transform (translation (0,0), scale (1,1), rotation 0, speed (0,0)) never moves under the motion step |
| `InstanceData.SpriteDataLayout` | renderSystem.hpp:14-21 | `SpriteData` has six members at offsets 0, 8, 24, 36, 40, 48 with no holes, and its size is 52 bytes |
| `InstanceData.RecordBytes` | renderSystem.cpp:75 | an upload of n records is a whole number of records: its size divided by `sizeof(SpriteData)` is n |
| `InstanceData.Serialize` | renderSystem.cpp:64-73 | a record's transform is diagonal with both entries `scale.x`; its texture index and padding are 0 |
| `InstanceData.SerializeRoundTrip` | renderSystem.cpp:66-71 | reading translation, color and speed back from a record gives the sprite's own |
| `InstanceData.SerializeDeterminedBy` | renderSystem.cpp:66-71 | two sprites give the same record iff they agree on translation, color, speed and `scale.x`; `scale.y`, rotation, model and texture never reach the record |
| `InstanceData.DefaultTransformSerializesToIdentity` | sprite.hpp:13-16 | a sprite with default transform serialises to the origin, the identity matrix and zero speed |
| `Pipeline.DescriptorConfiguration` | pipeline.cpp:154-200 | binding 0 is one storage buffer for the vertex stage and binding 1 one combined image sampler for the fragment stage. A set takes one descriptor of each type. The pool holds 1000 sets and 1000 descriptors of each type. The push constants start at offset 0 for both stages |
| `Pipeline.AllocateSet` | renderSystem.cpp:115-123 | allocating a set succeeds iff fewer than 1000 sets and descriptors of each type are in use, and then takes one of each |
| `Pipeline.PoolHoldsExactly1000Sets` | pipeline.cpp:190-200 | from a fresh pool up to 1000 allocations succeed, and any longer run fails |
| `Pipeline.QuadWellFormed` | pipeline.cpp:49-55 | the quad has 4 vertices and 6 indices, all below 4, forming triangles (0,1,2) and (2,3,0). Both have positive signed area in the model's y-up coordinates (the same winding) and each covers half the unit square. Texture coordinates are the positions shifted by (0.5, 0.5) |
| `Pipeline.DrawIsRandomAt` | pipeline.cpp:65-68 | a `randomNumber(-0.5f, 0.5f)` call made after k earlier calls yields draw k and leaves the state k + 1 steps on |
| `Pipeline.LoadSprites` | pipeline.cpp:39-72 | loading yields exactly 1000 sprites sharing one model and one texture, with colour (1,1,1), scale (0.5,0.5) and rotation 0. Sprite i takes draws 4i..4i+3 as translation x, translation y, speed x, speed y, and the generator ends 4000 steps on |
| `Pipeline.LoadedSpriteInRange` | pipeline.cpp:65-68 | every loaded sprite's translation and speed components lie in [-0.5, 0.5] |
| `Pipeline.FirstSpriteFromSeed` | pipeline.cpp:63-68 | from the fixed seed the first sprite's position is reproducible, and the generator state after loading is nonzero |
| `Render.Construct` | renderSystem.cpp:9-14 | a new orchestrator holds no buffer and no descriptor set, and its pool can serve a first allocation |
| `Render.SerializeAll` | renderSystem.cpp:63-73 | one record per sprite, record i the serialisation of sprite i |
| `Render.InitializeSpriteData` | renderSystem.cpp:52-108 | an empty population changes nothing. Otherwise a new buffer of exactly `sizeof(SpriteData) * n` bytes, holding the records in order, replaces any previous one |
| `Render.CreateTextureArrayDescriptorSet` | renderSystem.cpp:110-157 | fails without a buffer and fails when the pool is exhausted. On success it binds the current buffer with range `sizeof(SpriteData) * n` and the first sprite's texture, taking one set and one descriptor of each type from the pool |
| `Render.Initialize` | renderSystem.cpp:20-23 | empty population: always an error, "not initialized" when no buffer exists. Non-empty: succeeds iff the pool has room. On success the buffer mirrors the population, the descriptor range equals the buffer size, the image is `sprites[0].texture`, both resources are new, and the pool has given up exactly one set and one descriptor of each type, so a further call succeeds while the pool has room |
| `Render.UpdateSprites` | renderSystem.cpp:185-223 | every sprite moves by speed * dt and nothing else changes. The buffer keeps its identity and size, its first n records become the moved sprites' records, and `sizeof(SpriteData) * n` bytes are uploaded. Consistency and mirroring are preserved |
| `Render.InstanceCount` | renderSystem.cpp:181 | the instance count never exceeds n, equals n when n <= `UINT32_MAX`, and is `UINT32_MAX` otherwise |
| `Render.RenderSprites` | renderSystem.cpp:159-183 | the pipeline is always bound first. With an empty population or a null model it is the only command. Otherwise the first sprite's mesh and the descriptor set are bound, and the last command is the single draw of `min(n, UINT32_MAX)` instances |
| `Render.DrawReadsOneRecordPerInstance` | renderSystem.cpp:171-182 | once initialised, a frame binds the descriptor set that points at the instance buffer and draws exactly one instance per record in it |
| `Render.DrawCoversPopulation` | renderSystem.cpp:181-182 | a drawable population of at most `UINT32_MAX` sprites is drawn with exactly one instance per sprite |

## Left out

- Vulkan object creation, memory mapping, staging buffers and `copyBuffer`. They appear only as the resulting buffer contents and sizes. Creation failures other than descriptor-set allocation are not modelled.
- `readFile`, shader and texture file paths, and texture loading: filesystem I/O. The shared model and texture are parameters of `Pipeline.LoadSprites`.
- The orthographic projection and the window extent it depends on: floating-point numerics. `renderSprites` records it as an abstract `PushProjection` command.
- Fixed-function pipeline state (blending, rasterisation, depth, dynamic viewport and scissor): configuration with no behaviour to state.
- Destructors and teardown order: resource lifetime, not logic.
- `sizeof(Push)`, the push-constant size: `Push` is declared in global.hpp, which is not part of this model.
- The texture's own descriptor-set allocation: texture.cpp is not part of this model. The orchestrator's pool belongs to its own pipeline and starts empty.
- What `Model::bind` and `Model::draw` do inside: model.cpp is not part of this model.
- Render.InitializeSpriteData: the buffer's size is taken to be the requested `bufferSize`. The `Buffer` wrapper also receives `minStorageBufferOffsetAlignment`; any rounding it does to that alignment is not represented, because its code is not part of this model. The upload and the descriptor range are `sizeof(SpriteData) * n` either way.
- Pipeline.AllocateSet: assumes that `vkAllocateDescriptorSets` fails exactly when `maxSets` or a pool size would be exceeded. Vulkan only says such an allocation may fail with `VK_ERROR_OUT_OF_POOL_MEMORY`, and in Vulkan 1.0 it is invalid usage. So "any longer run fails" in `Pipeline.PoolHoldsExactly1000Sets` holds of this abstraction, not as a guarantee of the call.
- Diagnostic output to `std::cout` and `std::cerr`.
- Random.RandomNumber: does not model the write of the global `normalized`, which nothing in the modelled code reads.
- `main` and `compile`: process startup.
- Random.Normalized: computed over the reals, so the quotient stays below 1. The float conversion of any output of 0xFFFFFF80 or more rounds up to 2^32, which makes the float `normalized` exactly 1.
- Random.RandomNumber: computed over the reals, so its value stays below `max`. When the float `normalized` is exactly 1 the value is exactly `max`.
- Sprites.IntegrateAdditive: holds over the reals only, because float additions round.
- Render.UpdateSprites: requires an existing buffer large enough for the population. Before `initialize` the source dereferences a null buffer, and a larger population would be copied past the buffer's end. An empty population is modelled as a no-op that uploads 0 bytes, whereas the source then requests a zero-size staging buffer, a zero-size map and a zero-size copy, which Vulkan forbids.
- Render.RenderSprites: requires a descriptor set when there is something to draw. Before `initialize` the source would bind an uninitialised descriptor-set handle.
- Render.Initialize: a failure returns no state. The source has already replaced the buffer when descriptor allocation fails, but the exception ends the program.
- A null texture pointer is not representable. The source never checks it, and `loadSprites` always sets it.

=== FILE: base.dfy ===
/** Small shared vocabulary: optional values, results with an error, and the
    unsigned 32-bit integer type the renderer uses for counts and indices. */
module Base {

  /** A value that may be absent (a null `unique_ptr`, an unset handle). */
  datatype Option<+T> = None | Some(value: T)

  /** The outcome of an operation that can throw. */
  datatype Result<+T, +E> = Success(value: T) | Failure(error: E)

  const UInt32Max: int := 0xFFFF_FFFF

  /** `uint32_t`. */
  newtype uint32 = x: int | 0 <= x <= 0xFFFF_FFFF

  /** `std::min`. */
  function Min(a: int, b: int): (m: int)
    ensures m <= a && m <= b
    ensures m == a || m == b
  {
    if a <= b then a else b
  }
}

=== FILE: pipeline.dfy ===
/** The pipeline object of pipeline.cpp, reduced to its behaviour: the
    descriptor and push-constant layout it declares, the capacity of the
    descriptor pool it creates, and `loadSprites`, which builds the shared
    quad mesh and the sprite population. Fixed-function state and the
    Vulkan object creation itself are not modelled. */
module Pipeline {
  import opened Base
  import opened Random
  import opened Sprites

  // ---------------------------------------------------------------------
  // Descriptor and push-constant configuration

  datatype DescriptorType = StorageBuffer | CombinedImageSampler

  datatype ShaderStage = VertexStage | FragmentStage

  /** `VkDescriptorSetLayoutBinding`. */
  datatype LayoutBinding = LayoutBinding(binding: nat, kind: DescriptorType, count: nat, stages: set<ShaderStage>)

  /** The descriptor-set layout: the instance records for the vertex stage
      and the texture for the fragment stage. */
  const SetLayout: seq<LayoutBinding> := [
    LayoutBinding(0, StorageBuffer, 1, {VertexStage}),
    LayoutBinding(1, CombinedImageSampler, 1, {FragmentStage})
  ]

  /** `VkPushConstantRange`; its size, `sizeof(Push)`, is not modelled. */
  datatype PushConstantRange = PushConstantRange(stages: set<ShaderStage>, offset: nat)

  /** The one push-constant range, visible to both stages. */
  const PushConstants: PushConstantRange := PushConstantRange({VertexStage, FragmentStage}, 0)

  /** `VkDescriptorPoolSize` and the pool's creation parameters. */
  datatype PoolSize = PoolSize(kind: DescriptorType, count: nat)
  datatype PoolConfig = PoolConfig(sizes: seq<PoolSize>, maxSets: nat)

  const DescriptorPoolConfig: PoolConfig :=
    PoolConfig([PoolSize(CombinedImageSampler, 1000), PoolSize(StorageBuffer, 1000)], 1000)

  /** Number of descriptors of `kind` one set allocated with `layout` takes. */
  function Demand(layout: seq<LayoutBinding>, kind: DescriptorType): nat
  {
    if |layout| == 0 then 0
    else (if layout[0].kind == kind then layout[0].count else 0) + Demand(layout[1..], kind)
  }

  /** Number of descriptors of `kind` the pool was created with. */
  function Capacity(sizes: seq<PoolSize>, kind: DescriptorType): nat
  {
    if |sizes| == 0 then 0
    else (if sizes[0].kind == kind then sizes[0].count else 0) + Capacity(sizes[1..], kind)
  }

  /** The two bindings are numbered 0 and 1, one descriptor each, storage
      buffer for the vertex stage and image sampler for the fragment stage;
      a set takes one descriptor of each type, and the pool has room for
      1000 sets and 1000 descriptors of each type; the push constants start
      at offset 0 and are visible to both stages. */
  lemma DescriptorConfiguration()
    ensures |SetLayout| == 2
    ensures forall i :: 0 <= i < |SetLayout| ==> SetLayout[i].binding == i && SetLayout[i].count == 1
    ensures SetLayout[0].kind == StorageBuffer && SetLayout[0].stages == {VertexStage}
    ensures SetLayout[1].kind == CombinedImageSampler && SetLayout[1].stages == {FragmentStage}
    ensures Demand(SetLayout, StorageBuffer) == 1 && Demand(SetLayout, CombinedImageSampler) == 1
    ensures Capacity(DescriptorPoolConfig.sizes, StorageBuffer) == 1000
    ensures Capacity(DescriptorPoolConfig.sizes, CombinedImageSampler) == 1000
    ensures DescriptorPoolConfig.maxSets == 1000
    ensures PushConstants.offset == 0 && PushConstants.stages == {VertexStage, FragmentStage}
  {
  }

  /** What has been allocated from the descriptor pool so far. Sets are
      never freed back to it. */
  datatype Pool = Pool(sets: nat, storageBuffers: nat, imageSamplers: nat)

  const EmptyPool: Pool := Pool(0, 0, 0)

  /** Whether one more set with `SetLayout` fits in the pool. */
  predicate CanAllocate(p: Pool)
  {
    && p.sets < DescriptorPoolConfig.maxSets
    && p.storageBuffers + Demand(SetLayout, StorageBuffer) <= Capacity(DescriptorPoolConfig.sizes, StorageBuffer)
    && p.imageSamplers + Demand(SetLayout, CombinedImageSampler) <= Capacity(DescriptorPoolConfig.sizes, CombinedImageSampler)
  }

  /** `vkAllocateDescriptorSets` for one set with `SetLayout`: fails when the
      pool is out of sets or descriptors, otherwise takes one set and one
      descriptor of each type. */
  function AllocateSet(p: Pool): (r: Option<Pool>)
    ensures r.Some? <==> p.sets < 1000 && p.storageBuffers < 1000 && p.imageSamplers < 1000
    ensures r.Some? ==> r.value == Pool(p.sets + 1, p.storageBuffers + 1, p.imageSamplers + 1)
  {
    DescriptorConfiguration();
    if CanAllocate(p) then
      Some(Pool(
        p.sets + 1,
        p.storageBuffers + Demand(SetLayout, StorageBuffer),
        p.imageSamplers + Demand(SetLayout, CombinedImageSampler)))
    else
      None
  }

  /** `k` allocations in a row, or None if one of them fails. */
  function AllocateMany(p: Pool, k: nat): Option<Pool>
    decreases k
  {
    if k == 0 then Some(p)
    else match AllocateSet(p)
      case None => None
      case Some(q) => AllocateMany(q, k - 1)
  }

  /** From a fresh pool, exactly 1000 sets can be allocated: every run of up
      to 1000 allocations succeeds, and any longer run fails. */
  lemma {:induction false} PoolHoldsExactly1000Sets(k: nat)
    ensures k <= 1000 ==> AllocateMany(EmptyPool, k) == Some(Pool(k, k, k))
    ensures k > 1000 ==> AllocateMany(EmptyPool, k) == None
  {
    AllocateFrom(0, k);
  }

  lemma {:induction false} AllocateFrom(used: nat, k: nat)
    requires used <= 1000
    ensures used + k <= 1000 ==> AllocateMany(Pool(used, used, used), k) == Some(Pool(used + k, used + k, used + k))
    ensures used + k > 1000 ==> AllocateMany(Pool(used, used, used), k) == None
    decreases k
  {
    if k > 0 && used < 1000 {
      AllocateFrom(used + 1, k - 1);
    }
  }

  // ---------------------------------------------------------------------
  // The quad mesh

  /** `Model::Vertex`. */
  datatype Vertex = Vertex(position: Vec2, color: Vec3, texCoord: Vec2)

  datatype Mesh = Mesh(vertices: seq<Vertex>, indices: seq<uint32>)

  /** The unit quad centred on the origin: red, green, blue and white
      corners, in order of increasing angle from the bottom left in y-up
      coordinates. */
  const Quad: Mesh := Mesh(
    [
      Vertex(Vec2(-0.5, -0.5), Vec3(1.0, 0.0, 0.0), Vec2(0.0, 0.0)),
      Vertex(Vec2(0.5, -0.5), Vec3(0.0, 1.0, 0.0), Vec2(1.0, 0.0)),
      Vertex(Vec2(0.5, 0.5), Vec3(0.0, 0.0, 1.0), Vec2(1.0, 1.0)),
      Vertex(Vec2(-0.5, 0.5), Vec3(1.0, 1.0, 1.0), Vec2(0.0, 1.0))
    ],
    [0, 1, 2, 2, 3, 0])

  /** Every index names a vertex of the mesh. */
  predicate IndicesInRange(m: Mesh)
  {
    forall i :: 0 <= i < |m.indices| ==> (m.indices[i] as int) < |m.vertices|
  }

  /** The triangles of a triangle-list mesh, as index triples. */
  function Triangles(m: Mesh): (ts: seq<(nat, nat, nat)>)
    requires |m.indices| % 3 == 0
    ensures |ts| == |m.indices| / 3
  {
    seq(|m.indices| / 3, k requires 0 <= k < |m.indices| / 3 =>
      (m.indices[3 * k] as nat, m.indices[3 * k + 1] as nat, m.indices[3 * k + 2] as nat))
  }

  /** Twice the signed area of triangle abc: positive when a, b, c turn
      counter-clockwise in y-up coordinates (Vulkan's clip space is y-down). */
  function DoubleArea(a: Vec2, b: Vec2, c: Vec2): real
  {
    (b.x - a.x) * (c.y - a.y) - (c.x - a.x) * (b.y - a.y)
  }

  /** The quad has 4 vertices and 6 indices, all in range; the indices form
      the two triangles (0, 1, 2) and (2, 3, 0), which share the diagonal
      0–2, both have positive signed area in y-up coordinates and each
      covers half of the unit square; each vertex's texture coordinate is its position shifted by
      (0.5, 0.5), so the texture spans the quad exactly. */
  lemma QuadWellFormed()
    ensures |Quad.vertices| == 4 && |Quad.indices| == 6
    ensures IndicesInRange(Quad)
    ensures Triangles(Quad) == [(0, 1, 2), (2, 3, 0)]
    ensures forall t :: t in Triangles(Quad) ==>
      DoubleArea(Quad.vertices[t.0].position, Quad.vertices[t.1].position, Quad.vertices[t.2].position) == 1.0
    ensures forall v :: v in Quad.vertices ==> v.texCoord == v.position.Plus(Vec2(0.5, 0.5))
  {
  }

  // ---------------------------------------------------------------------
  // loadSprites

  /** Number of sprites `loadSprites` creates. */
  const SpriteCount: nat := 1000

  const White: Vec3 := Vec3(1.0, 1.0, 1.0)
  const HalfScale: Vec2 := Vec2(0.5, 0.5)

  /** The value of the `k`-th `randomNumber(-0.5f, 0.5f)` call (counting from
      0) made from generator state `state`. */
  function RandomAt(state: bv32, k: nat): real
  {
    Interpolate(-0.5, 0.5, Normalized(Advance(state, k + 1)))
  }

  /** Sprite `i` of a load that starts from generator state `state`: its
      translation takes draws 4i and 4i+1 and its speed draws 4i+2 and 4i+3. */
  function LoadedSprite(state: bv32, i: nat, model: ModelRef, texture: TextureRef): Sprite
  {
    Sprite(model, texture, White,
      Transform2d(
        Vec2(RandomAt(state, 4 * i), RandomAt(state, 4 * i + 1)),
        HalfScale,
        0.0,
        Vec2(RandomAt(state, 4 * i + 2), RandomAt(state, 4 * i + 3))))
  }

  /** A `randomNumber(-0.5f, 0.5f)` call made after `k` earlier calls yields
      draw `k` and leaves the state advanced by `k + 1`. */
  lemma DrawIsRandomAt(state: bv32, k: nat, current: bv32)
    requires current == Advance(state, k)
    ensures RandomNumber(current, -0.5, 0.5) == Draw(RandomAt(state, k), Advance(state, k + 1))
  {
  }

  /** `loadSprites`: starts a fresh list (the previous contents are
      discarded) and appends 1000 sprites sharing one model and one texture,
      drawing four random numbers per sprite in the order translation x,
      translation y, speed x, speed y. The model and texture are created
      here from the quad and the texture file; they are passed in as the
      handles that creation yields. */
  method LoadSprites(state: bv32, model: ModelRef, texture: TextureRef) returns (sprites: seq<Sprite>, state': bv32)
    requires model.SharedModel?
    ensures |sprites| == SpriteCount
    ensures state' == Advance(state, 4 * SpriteCount)
    ensures forall i :: 0 <= i < |sprites| ==> sprites[i] == LoadedSprite(state, i, model, texture)
    ensures forall i :: 0 <= i < |sprites| ==>
      && sprites[i].model == model && sprites[i].texture == texture
      && sprites[i].color == White
      && sprites[i].transform.scale == HalfScale && sprites[i].transform.rotation == 0.0
  {
    sprites := [];
    var st := state;
    var i := 0;
    while i < SpriteCount
      invariant 0 <= i <= SpriteCount
      invariant |sprites| == i
      invariant st == Advance(state, 4 * i)
      invariant forall j :: 0 <= j < i ==> sprites[j] == LoadedSprite(state, j, model, texture)
    {
      var tx := RandomNumber(st, -0.5, 0.5);
      DrawIsRandomAt(state, 4 * i, st);
      var ty := RandomNumber(tx.state, -0.5, 0.5);
      DrawIsRandomAt(state, 4 * i + 1, tx.state);
      var sx := RandomNumber(ty.state, -0.5, 0.5);
      DrawIsRandomAt(state, 4 * i + 2, ty.state);
      var sy := RandomNumber(sx.state, -0.5, 0.5);
      DrawIsRandomAt(state, 4 * i + 3, sx.state);
      var sprite := Sprite(model, texture, White,
        Transform2d(Vec2(tx.value, ty.value), HalfScale, 0.0, Vec2(sx.value, sy.value)));
      sprites := sprites + [sprite];
      st := sy.state;
      i := i + 1;
    }
    state' := st;
  }

  /** Every loaded sprite starts inside [-0.5, 0.5]² and moves with a speed
      whose components lie in [-0.5, 0.5]. */
  lemma LoadedSpriteInRange(state: bv32, i: nat, model: ModelRef, texture: TextureRef)
    ensures var t := LoadedSprite(state, i, model, texture).transform;
      && -0.5 <= t.translation.x <= 0.5 && -0.5 <= t.translation.y <= 0.5
      && -0.5 <= t.speed.x <= 0.5 && -0.5 <= t.speed.y <= 0.5
  {
  }

  /** From the fixed seed the first sprite's position is reproducible, and
      the generator is left in a nonzero state after loading. */
  lemma FirstSpriteFromSeed(model: ModelRef, texture: TextureRef)
    ensures LoadedSprite(Seed, 0, model, texture).transform.translation ==
      Vec2(-0.5 + 2714967881.0 / 4294967296.0, -0.5 + 2238813396.0 / 4294967296.0)
    ensures Advance(Seed, 4 * SpriteCount) != 0
  {
    FirstOutputsFromSeed();
    AdvanceNonzero(Seed, 4 * SpriteCount);
  }
}

=== FILE: random.dfy ===
/** The seeded xorshift32 generator and `randomNumber` of main.cpp.

    The generator is a single global 32-bit state; here the state is threaded
    through pure functions explicitly. Floats are modelled as reals. */
module Random {

  /** Initial value of the global generator state. */
  const Seed: bv32 := 123456789

  /** `static_cast<float>(UINT32_MAX)`: 2^32 - 1 is not representable as a
      float and rounds to 2^32. */
  const UInt32MaxAsFloat: real := 4294967296.0

  /** The three xor-shift steps, in the order they are applied. */
  function ShiftLeft13(x: bv32): bv32 { x ^ (x << 13) }
  function ShiftRight17(x: bv32): bv32 { x ^ (x >> 17) }
  function ShiftLeft5(x: bv32): bv32 { x ^ (x << 5) }

  /** One generator step: left 13, right 17, left 5. */
  function XorShift32(x: bv32): bv32
  {
    ShiftLeft5(ShiftRight17(ShiftLeft13(x)))
  }

  /** Each xor-shift step maps only zero to zero. The three facts are stated
      over the bare expressions, where the solver decides them outright. */
  lemma ShiftStepsKeepNonzero(x: bv32)
    requires x != 0
    ensures x ^ (x << 13) != 0
    ensures x ^ (x >> 17) != 0
    ensures x ^ (x << 5) != 0
  {
  }

  /** State 0 is a fixed point, and a nonzero state never becomes 0. */
  lemma ZeroIsIsolated(x: bv32)
    ensures XorShift32(x) == 0 <==> x == 0
  {
  }

  /** The result of a `xorshift32()` call: the value returned and the global
      state left behind. */
  datatype Step = Step(value: bv32, state: bv32)

  /** `xorshift32()`: advances the state once and returns the new state. */
  function Next(state: bv32): (r: Step)
    ensures r.value == r.state
    ensures r.state != 0 <==> state != 0
  {
    var y := XorShift32(state);
    ZeroIsIsolated(state);
    Step(y, y)
  }

  /** The state after `n` calls of `xorshift32()` starting from `state`. */
  function Advance(state: bv32, n: nat): bv32
  {
    if n == 0 then state else XorShift32(Advance(state, n - 1))
  }

  /** Advancing is additive in the number of steps. */
  lemma {:induction false} AdvanceAdditive(state: bv32, a: nat, b: nat)
    ensures Advance(Advance(state, a), b) == Advance(state, a + b)
    decreases b
  {
    if b > 0 {
      AdvanceAdditive(state, a, b - 1);
    }
  }

  /** A nonzero seed never reaches the all-zero state, however far it is advanced. */
  lemma {:induction false} AdvanceNonzero(state: bv32, n: nat)
    requires state != 0
    ensures Advance(state, n) != 0
  {
    if n > 0 {
      AdvanceNonzero(state, n - 1);
      ZeroIsIsolated(Advance(state, n - 1));
    }
  }

  /** The first values returned from the fixed seed are reproducible. */
  lemma FirstOutputsFromSeed()
    ensures Advance(Seed, 1) == 0xA1D3_1F49
    ensures Advance(Seed, 2) == 0x8571_94D4
    ensures Advance(Seed, 3) == 0x4A82_AB01
    ensures Advance(Seed, 4) == 0xE3B2_1AF0
  {
  }

  /** `xorshift32() / static_cast<float>(UINT32_MAX)`, over the reals. */
  function Normalized(v: bv32): (n: real)
    ensures 0.0 <= n < 1.0
  {
    (v as int) as real / UInt32MaxAsFloat
  }

  /** `min + (max - min) * normalized`. */
  function Interpolate(lo: real, hi: real, n: real): real
  {
    lo + (hi - lo) * n
  }

  lemma MulNonnegative(a: real, b: real)
    requires 0.0 <= a && 0.0 <= b
    ensures 0.0 <= a * b
  {
  }

  /** An interpolation by a fraction in [0, 1] stays within [lo, hi]; the
      closed upper end covers a float `normalized` rounded up to 1. */
  lemma InterpolateInRange(lo: real, hi: real, n: real)
    requires lo <= hi
    requires 0.0 <= n <= 1.0
    ensures lo <= Interpolate(lo, hi, n) <= hi
  {
    MulNonnegative(hi - lo, n);
    MulNonnegative(hi - lo, 1.0 - n);
  }

  /** The result of a `randomNumber(min, max)` call. */
  datatype Draw = Draw(value: real, state: bv32)

  /** `randomNumber(min, max)`: exactly one `xorshift32()` call, scaled into
      [min, max] when min <= max. */
  function RandomNumber(state: bv32, lo: real, hi: real): (r: Draw)
    ensures r.state == Next(state).state
    ensures lo <= hi ==> lo <= r.value <= hi
    ensures r.value == Interpolate(lo, hi, Normalized(Advance(state, 1)))
  {
    var step := Next(state);
    var v := Interpolate(lo, hi, Normalized(step.value));
    assert lo <= hi ==> lo <= v <= hi by {
      if lo <= hi {
        InterpolateInRange(lo, hi, Normalized(step.value));
      }
    }
    Draw(v, step.state)
  }
}

=== FILE: render_system.dfy ===
/** The render orchestrator of renderSystem.cpp: the instance buffer and
    descriptor set it holds, `initialize`, `updateSprites` and
    `renderSprites`. Vulkan calls appear as state changes (a buffer with
    contents, a descriptor set with bindings, pool usage) and as recorded
    commands; the sprite population is the process-wide list, passed in
    and returned explicitly. */
module Render {
  import opened Base
  import opened Sprites
  import opened InstanceData
  import opened Pipeline

  /** The device-local instance buffer and the records last copied into it. */
  datatype Buffer = Buffer(handle: nat, size: nat, records: seq<SpriteData>)

  /** The instance descriptor set: binding 0 is `range` bytes of buffer
      `buffer` from offset 0, binding 1 is the image view and sampler of
      `image`. */
  datatype DescriptorSet = DescriptorSet(handle: nat, buffer: nat, range: nat, image: TextureRef)

  /** The orchestrator's state slots: at most one instance buffer and one
      instance descriptor set, the descriptor pool of its own pipeline, and
      a counter that hands out distinct handles. */
  datatype RenderSystem = RenderSystem(
    pool: Pool,
    instanceBuffer: Option<Buffer>,
    descriptorSet: Option<DescriptorSet>,
    nextHandle: nat)

  /** The errors `initialize` can end in. */
  datatype InitError =
    | BufferNotInitialized          // "spriteDataBuffer is not initialized!"
    | DescriptorSetAllocationFailed // "failed to allocate descriptor set!"
    | EmptyPopulationIndexed        // `sprites[0]` read from an empty list

  /** Consistency of the state slots: the buffer's size matches its
      records, the descriptor set refers to the buffer currently held, and
      every handle was handed out before. */
  predicate Valid(rs: RenderSystem)
  {
    && (rs.instanceBuffer.Some? ==>
         && rs.instanceBuffer.value.size == RecordBytes(|rs.instanceBuffer.value.records|)
         && rs.instanceBuffer.value.handle < rs.nextHandle)
    && (rs.descriptorSet.Some? ==>
         && rs.instanceBuffer.Some?
         && rs.descriptorSet.value.buffer == rs.instanceBuffer.value.handle
         && rs.descriptorSet.value.handle < rs.nextHandle)
  }

  /** The instance buffer mirrors `sprites`: one record per sprite, record i
      the serialisation of sprite i. */
  predicate Mirrors(sprites: seq<Sprite>, rs: RenderSystem)
  {
    && rs.instanceBuffer.Some?
    && |rs.instanceBuffer.value.records| == |sprites|
    && forall i :: 0 <= i < |sprites| ==> rs.instanceBuffer.value.records[i] == Serialize(sprites[i])
  }

  /** The constructor: a fresh pipeline (and so an empty descriptor pool),
      no instance buffer and no descriptor set yet. */
  function Construct(): (rs: RenderSystem)
    ensures Valid(rs)
    ensures rs.instanceBuffer.None? && rs.descriptorSet.None?
    ensures CanAllocate(rs.pool)
  {
    DescriptorConfiguration();
    RenderSystem(EmptyPool, None, None, 0)
  }

  /** The record-building loop of `initializeSpriteData`. */
  method SerializeAll(sprites: seq<Sprite>) returns (records: seq<SpriteData>)
    ensures |records| == |sprites|
    ensures forall i :: 0 <= i < |sprites| ==> records[i] == Serialize(sprites[i])
  {
    records := [];
    var i := 0;
    while i < |sprites|
      invariant 0 <= i <= |sprites|
      invariant |records| == i
      invariant forall j :: 0 <= j < i ==> records[j] == Serialize(sprites[j])
    {
      records := records + [Serialize(sprites[i])];
      i := i + 1;
    }
  }

  /** `initializeSpriteData`: on an empty population nothing happens;
      otherwise the records are uploaded (`uploaded` bytes) into a new
      buffer of exactly that size, which replaces any previous one. */
  method InitializeSpriteData(sprites: seq<Sprite>, rs: RenderSystem) returns (rs': RenderSystem, uploaded: nat)
    ensures |sprites| == 0 ==> rs' == rs && uploaded == 0
    ensures |sprites| > 0 ==>
      && Mirrors(sprites, rs')
      && rs'.instanceBuffer.value.size == uploaded == RecordBytes(|sprites|)
      && rs'.instanceBuffer.value.handle == rs.nextHandle
      && rs'.nextHandle == rs.nextHandle + 1
      && rs'.pool == rs.pool && rs'.descriptorSet == rs.descriptorSet
  {
    if |sprites| == 0 {
      return rs, 0;
    }
    var records := SerializeAll(sprites);
    var bufferSize := RecordBytes(|sprites|);
    rs' := rs.(
      instanceBuffer := Some(Buffer(rs.nextHandle, bufferSize, records)),
      nextHandle := rs.nextHandle + 1);
    uploaded := bufferSize;
  }

  /** `createTextureArrayDescriptorSet`: requires an instance buffer, takes
      one set from the pool, and binds the buffer (range
      `sizeof(SpriteData) * sprites.size()`) at 0 and the first sprite's
      texture at 1. */
  function CreateTextureArrayDescriptorSet(sprites: seq<Sprite>, rs: RenderSystem): (r: Result<RenderSystem, InitError>)
    ensures rs.instanceBuffer.None? ==> r == Failure(BufferNotInitialized)
    ensures rs.instanceBuffer.Some? && !CanAllocate(rs.pool) ==> r == Failure(DescriptorSetAllocationFailed)
    ensures rs.instanceBuffer.Some? && CanAllocate(rs.pool) && |sprites| == 0 ==> r == Failure(EmptyPopulationIndexed)
    ensures r.Success? ==>
      && |sprites| > 0
      && r.value.instanceBuffer == rs.instanceBuffer
      && r.value.descriptorSet == Some(DescriptorSet(
           rs.nextHandle, rs.instanceBuffer.value.handle, RecordBytes(|sprites|), sprites[0].texture))
      && r.value.pool == Pool(rs.pool.sets + 1, rs.pool.storageBuffers + 1, rs.pool.imageSamplers + 1)
      && r.value.nextHandle == rs.nextHandle + 1
  {
    if rs.instanceBuffer.None? then Failure(BufferNotInitialized)
    else match AllocateSet(rs.pool)
      case None => Failure(DescriptorSetAllocationFailed)
      case Some(pool') =>
        var range := RecordBytes(|sprites|);
        if |sprites| == 0 then Failure(EmptyPopulationIndexed)
        else
          var ds := DescriptorSet(rs.nextHandle, rs.instanceBuffer.value.handle, range, sprites[0].texture);
          Success(rs.(pool := pool', descriptorSet := Some(ds), nextHandle := rs.nextHandle + 1))
  }

  /** `initialize`: builds the instance buffer, then the descriptor set.
      On an empty population no buffer is built, so unless an earlier call
      left one the descriptor step fails. Calling it again re-initialises:
      a new buffer sized to the current population and a new descriptor set
      replace the old ones, and the pool keeps the old set allocated. */
  method Initialize(sprites: seq<Sprite>, rs: RenderSystem) returns (r: Result<RenderSystem, InitError>)
    ensures |sprites| == 0 && rs.instanceBuffer.None? ==> r == Failure(BufferNotInitialized)
    ensures |sprites| == 0 ==> r.Failure?
    ensures |sprites| > 0 ==> (r.Success? <==> CanAllocate(rs.pool))
    ensures |sprites| > 0 && !CanAllocate(rs.pool) ==> r == Failure(DescriptorSetAllocationFailed)
    ensures r.Success? ==>
      var rs' := r.value;
      && Valid(rs')
      && Mirrors(sprites, rs')
      && rs'.instanceBuffer.value.size == RecordBytes(|sprites|)
      && rs'.descriptorSet.Some?
      && rs'.descriptorSet.value.range == rs'.instanceBuffer.value.size
      && rs'.descriptorSet.value.image == sprites[0].texture
      && rs'.pool == Pool(rs.pool.sets + 1, rs.pool.storageBuffers + 1, rs.pool.imageSamplers + 1)
      && rs'.instanceBuffer.value.handle >= rs.nextHandle
      && rs'.descriptorSet.value.handle >= rs.nextHandle
  {
    var rs1, uploaded := InitializeSpriteData(sprites, rs);
    r := CreateTextureArrayDescriptorSet(sprites, rs1);
  }

  /** `updateSprites(deltaTime)`: moves every sprite by `speed * deltaTime`
      and re-uploads all records (`uploaded` bytes) over the start of the
      existing buffer. The buffer must exist and be large enough for the
      population. */
  method UpdateSprites(sprites: seq<Sprite>, rs: RenderSystem, dt: real)
    returns (sprites': seq<Sprite>, rs': RenderSystem, uploaded: nat)
    requires rs.instanceBuffer.Some?
    requires |sprites| <= |rs.instanceBuffer.value.records|
    ensures |sprites'| == |sprites|
    ensures forall i :: 0 <= i < |sprites| ==> sprites'[i] == Integrate(sprites[i], dt)
    ensures uploaded == RecordBytes(|sprites|)
    ensures rs'.instanceBuffer.Some?
    ensures var b, b' := rs.instanceBuffer.value, rs'.instanceBuffer.value;
      && b'.handle == b.handle && b'.size == b.size
      && |b'.records| == |b.records|
      && (forall i :: 0 <= i < |sprites| ==> b'.records[i] == Serialize(sprites'[i]))
      && b'.records[|sprites|..] == b.records[|sprites|..]
    ensures rs'.pool == rs.pool && rs'.descriptorSet == rs.descriptorSet && rs'.nextHandle == rs.nextHandle
    ensures Valid(rs) ==> Valid(rs')
    ensures Mirrors(sprites, rs) ==> Mirrors(sprites', rs')
  {
    var records: seq<SpriteData> := [];
    sprites' := [];
    var i := 0;
    while i < |sprites|
      invariant 0 <= i <= |sprites|
      invariant |sprites'| == i && |records| == i
      invariant forall j :: 0 <= j < i ==> sprites'[j] == Integrate(sprites[j], dt)
      invariant forall j :: 0 <= j < i ==> records[j] == Serialize(sprites'[j])
    {
      var moved := Integrate(sprites[i], dt);
      sprites' := sprites' + [moved];
      records := records + [Serialize(moved)];
      i := i + 1;
    }
    uploaded := RecordBytes(|sprites|);
    var b := rs.instanceBuffer.value;
    var contents := records + b.records[|sprites|..];
    rs' := rs.(instanceBuffer := Some(b.(records := contents)));
  }

  /** A command recorded into the frame's command buffer. */
  datatype Command =
    | BindPipeline
    | BindMesh(model: ModelRef)
    | BindDescriptorSet(descriptorSet: nat)
    | PushProjection
    | DrawInstanced(model: ModelRef, instances: uint32)

  /** `static_cast<uint32_t>(std::min(n, UINT32_MAX))`. */
  function InstanceCount(n: nat): (c: uint32)
    ensures c as int <= n
    ensures c as int == n || c as int == UInt32Max
    ensures n <= UInt32Max ==> c as int == n
  {
    Min(n, UInt32Max) as uint32
  }

  /** Whether a frame has something to draw: a non-empty population whose
      first sprite holds a model. */
  predicate Drawable(sprites: seq<Sprite>)
  {
    |sprites| > 0 && sprites[0].model.SharedModel?
  }

  /** `renderSprites`: always binds the pipeline; when there is nothing to
      draw it stops there. Otherwise it binds the first sprite's mesh and the
      instance descriptor set, pushes the projection, and issues one
      instanced draw covering the population. Drawing needs a descriptor set
      written by `initialize`. */
  function RenderSprites(sprites: seq<Sprite>, rs: RenderSystem): (cmds: seq<Command>)
    requires Drawable(sprites) ==> rs.descriptorSet.Some?
    ensures |cmds| > 0 && cmds[0] == BindPipeline
    ensures !Drawable(sprites) <==> cmds == [BindPipeline]
    ensures Drawable(sprites) ==>
      && cmds[|cmds| - 1] == DrawInstanced(sprites[0].model, InstanceCount(|sprites|))
      && BindMesh(sprites[0].model) in cmds
      && BindDescriptorSet(rs.descriptorSet.value.handle) in cmds
    ensures forall i :: 0 <= i < |cmds| - 1 ==> !cmds[i].DrawInstanced?
  {
    if |sprites| == 0 then [BindPipeline]
    else
      var model := sprites[0].model;
      if model.NullModel? then [BindPipeline]
      else
        [BindPipeline, BindMesh(model), BindDescriptorSet(rs.descriptorSet.value.handle), PushProjection,
         DrawInstanced(model, InstanceCount(|sprites|))]
  }

  /** The number of instances drawn equals the population size for every
      population `std::vector` can realistically hold (up to `UINT32_MAX`);
      in particular a loaded population is drawn as 1000 instances. */
  lemma DrawCoversPopulation(sprites: seq<Sprite>, rs: RenderSystem)
    requires Drawable(sprites) && rs.descriptorSet.Some?
    requires |sprites| <= UInt32Max
    ensures RenderSprites(sprites, rs)[|RenderSprites(sprites, rs)| - 1].instances as int == |sprites|
  {
  }

  /** After a successful `initialize`, a frame binds the descriptor set that
      points at the instance buffer and draws exactly one instance per
      record that buffer holds. */
  lemma DrawReadsOneRecordPerInstance(sprites: seq<Sprite>, rs: RenderSystem)
    requires Valid(rs) && Mirrors(sprites, rs) && rs.descriptorSet.Some?
    requires Drawable(sprites) && |sprites| <= UInt32Max
    ensures var cmds := RenderSprites(sprites, rs);
      && BindDescriptorSet(rs.descriptorSet.value.handle) in cmds
      && rs.descriptorSet.value.buffer == rs.instanceBuffer.value.handle
      && cmds[|cmds| - 1].instances as int == |rs.instanceBuffer.value.records|
  {
  }
}

=== FILE: sprite.dfy ===
/** The sprite entity of sprite.hpp, with glm vectors as pairs and triples
    of reals. */
module Sprites {

  /** `glm::vec2`. */
  datatype Vec2 = Vec2(x: real, y: real)
  {
    function Plus(other: Vec2): Vec2 { Vec2(x + other.x, y + other.y) }
    function Times(k: real): Vec2 { Vec2(x * k, y * k) }
  }

  /** `glm::vec3`. */
  datatype Vec3 = Vec3(x: real, y: real, z: real)

  /** `std::shared_ptr<Model>`: a possibly-null handle shared by every sprite
      that holds a copy of it. Handles with the same `id` alias one model. */
  datatype ModelRef = NullModel | SharedModel(id: nat)

  /** `Texture*`: a non-owning reference; many sprites may alias one texture.
      The renderer never checks it for null and the loader always sets it, so
      a null texture is not represented. */
  datatype TextureRef = TextureRef(id: nat)

  /** `Sprite::Transform2dComponent`. */
  datatype Transform2d = Transform2d(translation: Vec2, scale: Vec2, rotation: real, speed: Vec2)

  /** A default-constructed `Transform2dComponent`, from its member initialisers. */
  const DefaultTransform: Transform2d :=
    Transform2d(Vec2(0.0, 0.0), Vec2(1.0, 1.0), 0.0, Vec2(0.0, 0.0))

  /** `Sprite`. */
  datatype Sprite = Sprite(model: ModelRef, texture: TextureRef, color: Vec3, transform: Transform2d)

  /** One explicit Euler step of a sprite's motion: `translation += speed * deltaTime`. */
  function Integrate(s: Sprite, dt: real): (r: Sprite)
    ensures r.model == s.model && r.texture == s.texture && r.color == s.color
    ensures r.transform.scale == s.transform.scale
    ensures r.transform.rotation == s.transform.rotation
    ensures r.transform.speed == s.transform.speed
    ensures r.transform.translation.x - s.transform.translation.x == s.transform.speed.x * dt
    ensures r.transform.translation.y - s.transform.translation.y == s.transform.speed.y * dt
  {
    s.(transform := s.transform.(translation := s.transform.translation.Plus(s.transform.speed.Times(dt))))
  }

  /** A step of length zero leaves a sprite where it is. */
  lemma IntegrateZero(s: Sprite)
    ensures Integrate(s, 0.0) == s
  {
  }

  /** Two consecutive steps compose into one step of the summed length
      (over the reals; floats only approximate this). */
  lemma IntegrateAdditive(s: Sprite, dt1: real, dt2: real)
    ensures Integrate(Integrate(s, dt1), dt2) == Integrate(s, dt1 + dt2)
  {
  }

  /** A sprite with a default-constructed transform is at rest: its speed is
      zero, so stepping never moves it and it stays at the origin. */
  lemma DefaultTransformAtRest(s: Sprite, dt: real)
    requires s.transform == DefaultTransform
    ensures Integrate(s, dt) == s
    ensures Integrate(s, dt).transform.translation == Vec2(0.0, 0.0)
  {
  }
}

=== FILE: sprite_data.dfy ===
/** The per-instance record `SpriteData` of renderSystem.hpp, its memory
    layout, and the serialisation of a sprite into it. */
module InstanceData {
  import opened Base
  import opened Sprites

  /** `glm::mat2`, stored column by column: `glm::mat2(a, b, c, d)` has
      first column (a, b) and second column (c, d). */
  datatype Mat2 = Mat2(col0: Vec2, col1: Vec2)

  /** `SpriteData`: exactly six fields, in declaration order. */
  datatype SpriteData = SpriteData(
    translation: Vec2,
    transform: Mat2,
    color: Vec3,
    textureId: uint32,
    speed: Vec2,
    padding: real)

  /** A struct member, described by how many 4-byte scalars it holds
      (`float` and `uint32_t` alike are 4 bytes with 4-byte alignment, and
      glm vectors and matrices without forced alignment are packed arrays of them). */
  datatype Member = Member(scalars: nat)

  const ScalarSize: nat := 4

  /** The members of `SpriteData`: vec2, mat2, vec3, uint32_t, vec2, float. */
  const SpriteDataMembers: seq<Member> :=
    [Member(2), Member(4), Member(3), Member(1), Member(2), Member(1)]

  /** Rounds `n` up to the 4-byte alignment every member has. */
  function AlignUp(n: nat): (r: nat)
    ensures r >= n && r % 4 == 0 && r - n < 4
  {
    if n % 4 == 0 then n else n + (4 - n % 4)
  }

  /** The byte offsets at which C places `members`, the first at `start`. */
  function Offsets(members: seq<Member>, start: nat): (r: seq<nat>)
    ensures |r| == |members|
    decreases |members|
  {
    if |members| == 0 then []
    else
      var here := AlignUp(start);
      [here] + Offsets(members[1..], here + members[0].scalars * ScalarSize)
  }

  /** `sizeof` of a struct with `members`: the end of the last member,
      rounded up to the struct's alignment. */
  function SizeOf(members: seq<Member>): nat
  {
    var offs := Offsets(members, 0);
    if |members| == 0 then 0
    else AlignUp(offs[|offs| - 1] + members[|members| - 1].scalars * ScalarSize)
  }

  /** `sizeof(SpriteData)`. */
  const SpriteDataSize: nat := 52

  /** The layout of `SpriteData` has no holes: translation at 0, transform
      at 8, color at 24, textureId at 36, speed at 40, padding at 48, and
      the struct is 52 bytes, the sum of its members' sizes. */
  lemma SpriteDataLayout()
    ensures Offsets(SpriteDataMembers, 0) == [0, 8, 24, 36, 40, 48]
    ensures SizeOf(SpriteDataMembers) == SpriteDataSize
    ensures SpriteDataSize == (2 + 4 + 3 + 1 + 2 + 1) * ScalarSize
  {
    var m := SpriteDataMembers;
    assert m[5..] == [Member(1)];
    assert Offsets(m[5..], 48) == [48];
    assert m[4..] == [Member(2)] + m[5..];
    assert Offsets(m[4..], 40) == [40, 48];
    assert m[3..] == [Member(1)] + m[4..];
    assert Offsets(m[3..], 36) == [36, 40, 48];
    assert m[2..] == [Member(3)] + m[3..];
    assert Offsets(m[2..], 24) == [24, 36, 40, 48];
    assert m[1..] == [Member(4)] + m[2..];
    assert Offsets(m[1..], 8) == [8, 24, 36, 40, 48];
  }

  /** Bytes occupied by `n` records: `sizeof(SpriteData) * n`. */
  function RecordBytes(n: nat): (bytes: nat)
    ensures bytes % SpriteDataSize == 0 && bytes / SpriteDataSize == n
  {
    SpriteDataSize * n
  }

  /** `glm::mat2(s, 0, 0, s)`: uniform scaling by `s`. */
  function UniformScale(s: real): Mat2
  {
    Mat2(Vec2(s, 0.0), Vec2(0.0, s))
  }

  /** The record written for one sprite. The transform is diagonal and
      isotropic, built from `scale.x` alone; the texture index and padding
      are always zero. */
  function Serialize(s: Sprite): (d: SpriteData)
    ensures d.textureId == 0 && d.padding == 0.0
    ensures d.transform.col0.y == 0.0 && d.transform.col1.x == 0.0
    ensures d.transform.col0.x == d.transform.col1.y == s.transform.scale.x
  {
    SpriteData(
      s.transform.translation,
      UniformScale(s.transform.scale.x),
      s.color,
      0,
      s.transform.speed,
      0.0)
  }

  /** The sprite state a record carries back: translation, color and speed. */
  function Unpack(d: SpriteData): (Vec2, Vec3, Vec2)
  {
    (d.translation, d.color, d.speed)
  }

  /** Serialising and reading a record back yields the sprite's translation,
      color and speed. */
  lemma SerializeRoundTrip(s: Sprite)
    ensures Unpack(Serialize(s)) == (s.transform.translation, s.color, s.transform.speed)
  {
  }

  /** Two sprites serialise to the same record exactly when they agree on
      translation, color, speed and `scale.x`; model, texture, `scale.y` and
      rotation never reach the record. */
  lemma SerializeDeterminedBy(a: Sprite, b: Sprite)
    ensures Serialize(a) == Serialize(b) <==>
      && a.transform.translation == b.transform.translation
      && a.color == b.color
      && a.transform.speed == b.transform.speed
      && a.transform.scale.x == b.transform.scale.x
  {
  }

  /** A sprite with a default-constructed transform becomes a record at the
      origin with the identity matrix and zero speed. */
  lemma DefaultTransformSerializesToIdentity(s: Sprite)
    requires s.transform == DefaultTransform
    ensures Serialize(s).translation == Vec2(0.0, 0.0)
    ensures Serialize(s).transform == Mat2(Vec2(1.0, 0.0), Vec2(0.0, 1.0))
    ensures Serialize(s).speed == Vec2(0.0, 0.0)
  {
  }
}
